=== FILE: README.md ===
# ARTAI marketplace core in Dafny

ARTAI is an app for generating AI art, minting it as an NFT and selling it. This project models the parts of it that make decisions and proves properties about them:

- **The on-chain escrow marketplace** (`Marketplace`, `MarketplaceLifecycle`). A listing account records `seller`, `nft_mint`, `price`, `created_at`, `expires_at` and `active`.
  - `create_listing` moves one token into an escrow account.
  - `cancel_listing` returns it to the seller.
  - `purchase` pays the seller's payment account and hands the token to the buyer.
  - Each instruction is a pure function. It returns either a failure (the runtime discards every write of a failing instruction) or the new state: the listing accounts plus an abstract token ledger.
  - The cluster time `now` is an argument.
- **The NFT collection program** (`Nft`): `initialize`, `mint_nft` and `transfer_nft`. This covers the supply counter and its checked increment, the single-token mint, and the arguments built for the metadata call.
- **The token program both contracts call** (`TokenLedger`). It is a sequence of token accounts, each with a mint, an owner and a u64 amount. A transfer or mint succeeds only when:
  - the accounts exist;
  - the source has enough funds;
  - the mints match;
  - the authority owns the source;
  - no u64 overflows.

  `Supply` sums one mint across the ledger, and it is what the conservation lemmas talk about.
- **The image engine's bookkeeping** (`AiConfig`, `ArtGenerator`, `EngineApi`):
  - the style templates and the quality-to-size choice;
  - how `generate_image` builds the prompt, the size and the optional character embedding;
  - the batch-size check of the generation endpoint;
  - the bounded character-embedding cache, modelled as an insertion-ordered sequence of `(id, embedding)` entries with distinct ids. It behaves like a Python dict: re-assigning an id keeps its position, a new id is appended, and eviction drops the first entry. Embeddings are opaque values.
- **The two front-end pages** (`CreatePage`, `MarketplacePage`):
  - input guards;
  - the generation request;
  - the NFT metadata builder;
  - the listing cache's replace-or-keep rule;
  - purchase and create-listing gating;
  - the purchase button's enable and caption rule.

  Every service call's result is an argument: success with a value, or failure.

Facts about the code that shape the model:
- The marketplace program has no duplicate-listing check and no sold or cancelled status. A listing has only the boolean `active`.
- `purchase` never compares the buyer with the seller. Only the page's button does (`MarketplacePage.PurchasesNeverBySeller`).
- Nothing enforces one active listing per mint.
- `cancel_listing` has no expiry check.
- The create-listing button always submits price 0.
- A generation request's `size` field is ignored by the engine.
- The marketplace page never sets `selectedNFT`, so its create-listing handler never calls the service.

Integer widths follow the contracts: `U8`, `U16`, `U64` and `I64` are range-restricted `int`s.
- `total_supply.checked_add(1).unwrap()` fails at `u64::MAX` instead of wrapping.
- The i64 addition `now + duration` fails when it leaves the i64 range. This assumes the workspace builds with overflow checks, as Anchor's workspace template does; the build profile is not part of this model.

## Model

| member | source | states |
|---|---|---|
| Marketplace.ListingSpace | contracts/src/marketplace.rs:154-162 | The listing account space is 97 bytes |
| Marketplace.CreateListing | contracts/src/marketplace.rs:11-38 | A missing token account fails with AccountNotInitialized, then an existing listing account with AccountInUse, then an i64 overflow of the expiry; succeeds iff the listing account is fresh, `now + duration` fits an i64 and the 1-token seller→escrow transfer is allowed; records seller = signer, the mint, the price, created_at = now, expires_at = now + duration, active = true; leaves other listings alone; moves exactly 1 token seller→escrow and no other balance, and a self-transfer changes no balance |
| Marketplace.CancelListing | contracts/src/marketplace.rs:40-60 | A missing listing or token account fails with AccountNotInitialized before the handler runs; then an inactive listing fails with ListingNotActive whoever signs (that check precedes the seller check); a signer other than the seller gets UnauthorizedAccess; success needs no expiry check, moves exactly 1 token escrow→seller, sets active = false and changes nothing else |
| Marketplace.Purchase | contracts/src/marketplace.rs:62-97 | A missing listing or token account fails with AccountNotInitialized before the handler runs; then it fails with ListingNotActive if inactive, otherwise with ListingExpired iff now > expires_at (now == expires_at is allowed); no buyer/seller comparison; success sets active = false and leaves other listings alone. For any choice of accounts, aliased ones included, each balance changes by exactly the net of the `price` payment buyer→seller and the 1-token delivery escrow→buyer. Every account outside the four is unchanged, and a buyer paying into their own payment account keeps its balance |
| TokenLedger.TransferConservesSupply | contracts/src/marketplace.rs:69-93 | A successful token transfer leaves the total supply of every mint unchanged |
| TokenLedger.MintToSupply | contracts/src/nft.rs:77-88 | Minting raises the minted token's supply by exactly the amount and leaves other mints' supplies unchanged |
| MarketplaceLifecycle.StepConservesSupply | contracts/src/marketplace.rs:11-97 | Every marketplace instruction, failing or not, conserves the supply of every token kind |
| MarketplaceLifecycle.RunConservesSupply | contracts/src/marketplace.rs:11-97 | Any sequence of marketplace instructions conserves the supply of every token kind |
| MarketplaceLifecycle.InactiveListingIsFinal | contracts/src/marketplace.rs:40-97 | An inactive listing is left exactly as it is by every instruction |
| MarketplaceLifecycle.RunKeepsInactiveListing | contracts/src/marketplace.rs:40-97 | An inactive listing stays unchanged through any sequence of instructions |
| MarketplaceLifecycle.RunKeepsListingAccounts | contracts/src/marketplace.rs:116-142 | No instruction closes a listing account: the set of listing addresses only grows |
| MarketplaceLifecycle.ActivationOnlyAtCreation | contracts/src/marketplace.rs:16-22 | An address holds a new or changed active listing after an instruction only if that instruction was a successful create_listing on a fresh account |
| MarketplaceLifecycle.SettledListingRejectsFurtherCalls | contracts/src/marketplace.rs:58-66 | After a successful purchase or cancel, a second purchase or cancel of the same listing fails, whoever signs and whenever: with ListingNotActive when the token accounts passed exist, else with AccountNotInitialized |
| Nft.CollectionSpace | contracts/src/nft.rs:158-165 | The collection account space is 120 bytes |
| Nft.Initialize | contracts/src/nft.rs:12-25 | Fails with AccountInUse iff the account already exists and succeeds on a fresh one; it then records authority = signer, name, symbol and uri from the arguments, and total_supply = 0 |
| Nft.MetadataCall | contracts/src/nft.rs:48-75 | The metadata instruction has exactly one creator (the authority, verified, with creator_share), a 500 basis-point fee, the authority as mint authority, payer and update authority, and is not mutable |
| Nft.MintNft | contracts/src/nft.rs:27-92 | Succeeds iff the collection exists, the metadata program accepts, the 1-token mint is allowed and total_supply < u64::MAX; then total_supply grows by exactly 1 and the target account by exactly 1 token; at u64::MAX it fails instead of wrapping; a missing collection or token account fails with AccountNotInitialized before the metadata call, and a rejected metadata call then yields MetadataRejected |
| Nft.InitializeThenMint | contracts/src/nft.rs:12-90 | A freshly initialised collection cannot be initialised again; a mint into it succeeds iff the metadata program and the token mint accept, and leaves the collection with its initial fields and total_supply = 1 |
| Nft.MintNftSupply | contracts/src/nft.rs:77-90 | A successful mint adds exactly one token to the minted mint's supply |
| Nft.TransferNft | contracts/src/nft.rs:94-109 | A missing token account fails with AccountNotInitialized; succeeds iff the 1-token transfer is allowed; the two balances' sum is conserved, the receiver gains one, and collections are untouched |
| AiConfig.StyleTemplateKeys | ai-engine/src/config.py:17-23 | The templates have exactly the four distinct keys cyberpunk, surreal, 3d_render and pixel_art, none with an empty template |
| AiConfig.GetStylePrompt | ai-engine/src/config.py:41-44 | Returns each key's stored template, and "" exactly for names that are not keys |
| AiConfig.GetImageSize | ai-engine/src/config.py:46-49 | Returns (3840, 2160) iff the quality is "high", otherwise (1024, 1024) |
| AiConfig.StandardQualityIsDefaultSize | ai-engine/src/config.py:11-14 | The default quality "standard" gives 1024x1024 and "high" gives 3840x2160 |
| ArtGenerator.Assign | ai-engine/src/model.py:123 | Dict assignment: the id then maps to the new embedding, every other id's lookup is unchanged, an existing id keeps its position, a new id is appended last, and ids stay distinct |
| ArtGenerator.EvictOldest | ai-engine/src/model.py:107-110 | When the cache holds at least CHARACTER_CACHE_SIZE entries, exactly the first (oldest) entry is removed; otherwise nothing changes |
| ArtGenerator.EvictOldestForgetsOnlyOldest | ai-engine/src/model.py:107-110 | Eviction forgets the oldest id and keeps every other lookup |
| ArtGenerator.SaveCharacterEmbedding | ai-engine/src/model.py:101-123 | Eviction happens before extraction and even when the id is already cached; after success the id maps to the new embedding; a failed extraction still leaves the oldest entry evicted and the id not updated; the size stays ≤ CHARACTER_CACHE_SIZE when it was; other ids are kept; a re-saved id keeps its position in insertion order and a new id is appended last |
| ArtGenerator.ClearCharacterCache | ai-engine/src/model.py:125-127 | After clearing, no id is found |
| ArtGenerator.GenerateImage | ai-engine/src/model.py:33-67 | The prompt becomes `prompt + ", " + template` for a template key and passes through unchanged for a missing or unknown style; a missing size becomes 1024x1024; a character embedding is used iff the id is non-empty and cached; 50 inference steps |
| ArtGenerator.Remove | ai-engine/src/api.py:101-102 | Deleting a cached id forgets it, keeps every other lookup and keeps the order of the rest |
| EngineApi.RequestedSize | ai-engine/src/api.py:48-49 | The size is 4K iff the request's quality is "high", otherwise the default |
| EngineApi.ServeGenerate | ai-engine/src/api.py:41-58 | Accepted iff a batch size is given and is ≤ MAX_BATCH_SIZE (4); the size comes from the quality and never from the request's size field; the prompt is styled as by generate_image; the request's character id selects the cached embedding exactly when it is non-empty and cached; 50 inference steps |
| EngineApi.DeleteCharacter | ai-engine/src/api.py:98-105 | Fails iff the id is not cached; otherwise removes exactly that id and keeps the remaining ids in their order |
| CreatePage.Initial | frontend/src/pages/Create.tsx:22-26 | The page starts with an empty prompt and no images or selection, and the default style is 'cyberpunk', one of the offered styles; the wallet is whatever is connected |
| CreatePage.StyleOptionsAreTemplateNames | frontend/src/pages/Create.tsx:115-124 | The selectable styles are exactly the engine's template keys |
| CreatePage.HandleGenerate | frontend/src/pages/Create.tsx:31-62 | An empty prompt sends nothing and changes nothing; otherwise it sends prompt, style, 4 images (≤ MAX_BATCH_SIZE) and 'high'; success replaces `images` wholesale, failure keeps them; `generating` ends false; the selection is not reset |
| CreatePage.MintMetadata | frontend/src/pages/Create.tsx:76-81 | The name is "Art.AI Creation - " + the first 20 characters of the prompt + "...", of length 21 + min(20, prompt length) ≤ 41; the description is the whole prompt, the image is the chosen image, and the single attribute is {Style, style} |
| CreatePage.HandleMint | frontend/src/pages/Create.tsx:64-99 | No mint call without a non-empty selected image and a wallet; otherwise the call goes to the wallet's key and carries exactly the metadata `MintMetadata` builds from the prompt, the selected image and the style |
| CreatePage.StyleStaysATemplate | frontend/src/pages/Create.tsx:115-124 | Through any sequence of page events, the style stays a template key |
| CreatePage.MintStyleIsATemplate | frontend/src/pages/Create.tsx:76-83 | Every mint call the page makes after any sequence of offered events carries a single Style attribute whose value is a template key |
| CreatePage.GenerateRequestIsServed | frontend/src/pages/Create.tsx:44-49 | A request from the page passes the engine's batch check and is generated at 3840x2160 with 4 images and the style template appended |
| MarketplacePage.Initial | frontend/src/pages/Marketplace.tsx:29-31 | The page mounts with no listings, nothing selected and not loading |
| MarketplacePage.FetchListings | frontend/src/pages/Marketplace.tsx:41-56 | Success replaces `listings` with the fetched sequence; failure keeps it and is not propagated; `loading` ends false |
| MarketplacePage.HandlePurchase | frontend/src/pages/Marketplace.tsx:58-89 | Without a wallet: no call and nothing changes; otherwise it calls purchase as the wallet, refetches iff the purchase succeeded, and `loading` ends false |
| MarketplacePage.HandleCreateListing | frontend/src/pages/Marketplace.tsx:91-115 | No call unless an NFT is selected and a wallet is connected; otherwise it submits (wallet, NFT, price), refetches only after success, and `loading` ends false |
| MarketplacePage.PurchaseButtonFor | frontend/src/pages/Marketplace.tsx:169-180 | Enabled iff a wallet is connected and it is not the seller; the caption is 'Your Listing' exactly in the seller case, otherwise 'Purchase' |
| MarketplacePage.CreateListingButtonPriceIsZero | frontend/src/pages/Marketplace.tsx:200-210 | The create-listing button submits price 0 whatever is typed |
| MarketplacePage.CreateListingNeverCalls | frontend/src/pages/Marketplace.tsx:30 | `selectedNFT` is never set after line 30, so over any event sequence from a page with nothing selected, nothing gets selected and create-listing never calls the service |
| MarketplacePage.InitialPageNeverCreatesListings | frontend/src/pages/Marketplace.tsx:29-31 | From the page as it mounts, no event sequence makes a create-listing call |
| MarketplacePage.RefreshesKeepLastAnswer | frontend/src/pages/Marketplace.tsx:41-56 | After any run of refreshes the page shows the answer of the last successful fetch, or its earlier list when every fetch failed; loading ends false and no purchase or create-listing call is made |
| MarketplacePage.PurchasesNeverBySeller | frontend/src/pages/Marketplace.tsx:169-176 | Through the enabled button, no purchase call has buyer == seller; this guard exists only in the page |

## Left out

- Token program internals are replaced by the `TokenLedger` checks listed above. Frozen accounts, delegates, multisig authorities, signatures, the mint account's own supply counter and the mint-authority check are not modelled.
- Escrow-authority signing is not modelled: the listing account is passed as authority through a plain CPI context. Account wiring is not checked: the escrow and payment accounts need not belong to the listing, and account substitution is not explored.
- Anchor account validation is modelled only as "the account already exists", "the listing or collection account holds nothing" and "a token account passed in does not exist". All three are checked before the handler body. Existing accounts are read in the order the account structs declare them, and an `init` account is created only after all of them have been read. Not modelled: discriminators, wrong-owner accounts, the `nft_mint` mint account, rent and payer funding, and serialization.
- Nft.Initialize: `Collection::LEN` leaves out the strings' length prefixes. A collection whose name, symbol and uri together exceed 60 bytes would not serialize into 120 bytes, so the real instruction fails there. The model does not represent that serialization failure: it succeeds on every fresh account and claims no bound on the string fields.
- CreatePage.MintMetadata: the prompt is a sequence of Unicode characters, while JavaScript's `slice(0, 20)` counts UTF-16 code units. A character outside the Basic Multilingual Plane counts once here but twice in the browser, so such a prompt keeps more of its text in the model's name. A slice that splits a surrogate pair leaves a lone surrogate, which cannot be represented here.
- The clock sysvar is not modelled: `now` is an argument, and a failing `Clock::get` is not modelled.
- The metadata program is an external program. Only the arguments built for it are recorded; whether it accepts them is an argument.
- The diffusion pipeline, CLIP feature extraction, embedding averaging and `torch.lerp` are floating-point ML in external libraries. Embeddings are opaque, images are not produced, and extraction is one success-or-failure argument.
- ArtGenerator.GenerateImage: records only which cached embedding feeds the prompt embedding, not the interpolated tensor itself.
- `setup_device`, the environment-variable paths and the constants no modelled logic reads are left out: model name and revision, CUDA memory fraction, embedding width, concurrency limit and timeout.
- Most of the engine's HTTP layer is left out: CORS, request parsing, base64 and PNG handling, status codes, the `/styles` and `/health` endpoints, the response metadata, and image decoding in the save endpoint.
- Routing, all rendering, toasts, modals and wallet-adapter UI are presentation only.
- The frontend service modules are not part of this model, so each call's outcome is an argument. CreatePage.GenerateRequestIsServed assumes the AI client forwards the request fields unchanged.
- Asynchronous interleaving is not modelled. Each page handler runs start to finish as one step, so the intermediate `loading = true` and buttons blocked while loading are not represented. Concurrent purchases are arbitrated by the ledger runtime, not by this code.

=== FILE: ai_config.dfy ===
/**
 The image engine's configuration: batch and cache limits, image sizes and
 the four style templates, with the two lookups built on them.
 */
module AiConfig {

  /** Width first, as in the engine's size tuples. */
  datatype ImageSize = ImageSize(width: int, height: int)

  const MAX_BATCH_SIZE: nat := 4
  const DEFAULT_IMAGE_SIZE: ImageSize := ImageSize(1024, 1024)
  const HIGH_RES_IMAGE_SIZE: ImageSize := ImageSize(3840, 2160)
  const GENERATION_STEPS: nat := 50
  const CHARACTER_CACHE_SIZE: nat := 1000

  const CYBERPUNK_TEMPLATE: string := "cyberpunk style, neon lights, futuristic city, high tech, low life"
  const SURREAL_TEMPLATE: string := "surrealist art style, dreamlike, abstract, symbolic elements"
  const RENDER_3D_TEMPLATE: string := "3D rendered, octane render, high detail, realistic lighting"
  const PIXEL_ART_TEMPLATE: string := "pixel art style, 16-bit, retro gaming aesthetic"

  /** The template names, in declaration order. */
  const STYLE_NAMES: seq<string> := ["cyberpunk", "surreal", "3d_render", "pixel_art"]

  const STYLE_TEMPLATES: map<string, string> := map[
    "cyberpunk" := CYBERPUNK_TEMPLATE,
    "surreal" := SURREAL_TEMPLATE,
    "3d_render" := RENDER_3D_TEMPLATE,
    "pixel_art" := PIXEL_ART_TEMPLATE]

  /** Exactly four templates, one per listed name, none of them empty. */
  lemma StyleTemplateKeys()
    ensures STYLE_TEMPLATES.Keys == set name | name in STYLE_NAMES
    ensures |STYLE_NAMES| == 4
    ensures forall i, j :: 0 <= i < j < |STYLE_NAMES| ==> STYLE_NAMES[i] != STYLE_NAMES[j]
    ensures forall name :: name in STYLE_TEMPLATES ==> STYLE_TEMPLATES[name] != ""
  {
  }

  /** The base prompt of a style; the empty string for an unknown style. */
  function GetStylePrompt(styleName: string): (r: string)
    ensures r != "" <==> styleName in STYLE_NAMES
    ensures styleName == "cyberpunk" ==> r == CYBERPUNK_TEMPLATE
    ensures styleName == "surreal" ==> r == SURREAL_TEMPLATE
    ensures styleName == "3d_render" ==> r == RENDER_3D_TEMPLATE
    ensures styleName == "pixel_art" ==> r == PIXEL_ART_TEMPLATE
  {
    if styleName in STYLE_TEMPLATES then STYLE_TEMPLATES[styleName] else ""
  }

  /** Image dimensions for a quality setting: 4K for "high", 1024x1024 for
      anything else, the default "standard" included. */
  function GetImageSize(quality: string): (r: ImageSize)
    ensures r == HIGH_RES_IMAGE_SIZE <==> quality == "high"
    ensures r == HIGH_RES_IMAGE_SIZE || r == DEFAULT_IMAGE_SIZE
  {
    if quality == "high" then HIGH_RES_IMAGE_SIZE else DEFAULT_IMAGE_SIZE
  }

  /** The default quality argument selects the default size. */
  lemma StandardQualityIsDefaultSize()
    ensures GetImageSize("standard") == DEFAULT_IMAGE_SIZE
    ensures GetImageSize("high") == ImageSize(3840, 2160)
  {
  }
}

=== FILE: art_generator.dfy ===
/**
 The image engine's own bookkeeping around the diffusion pipeline: how a
 generation request becomes the pipeline's arguments, and the bounded cache
 of character embeddings.

 The cache behaves like an insertion-ordered dictionary: it is a sequence of
 entries with distinct ids, assigning to an existing id keeps that entry's
 position, assigning a new id appends, and eviction drops the first entry.
 Embeddings are opaque values of type `E`.
 */
module ArtGenerator {
  import opened Base
  import opened AiConfig

  const DEFAULT_GUIDANCE_SCALE: real := 7.5

  datatype Entry<E> = Entry(id: string, embedding: E)

  type Cache<E> = seq<Entry<E>>

  predicate UniqueIds<E>(c: Cache<E>) {
    forall i, j :: 0 <= i < j < |c| ==> c[i].id != c[j].id
  }

  /** The ids of the cache, oldest first. */
  function IdOrder<E>(c: Cache<E>): (ids: seq<string>)
    ensures |ids| == |c|
    ensures forall i :: 0 <= i < |c| ==> ids[i] == c[i].id
  {
    if |c| == 0 then [] else [c[0].id] + IdOrder(c[1..])
  }

  /** Position of the first entry with `id`, or `|c|` when there is none. */
  function Find<E>(c: Cache<E>, id: string): (k: nat)
    ensures k <= |c|
    ensures k < |c| ==> c[k].id == id
    ensures forall i :: 0 <= i < k ==> c[i].id != id
  {
    if |c| == 0 then 0
    else if c[0].id == id then 0
    else 1 + Find(c[1..], id)
  }

  /** `Find` is determined by the ids alone: any index satisfying its
      contract is the one it returns. */
  lemma FindIsFirstMatch<E>(c: Cache<E>, id: string, k: nat)
    requires k <= |c|
    requires k < |c| ==> c[k].id == id
    requires forall i :: 0 <= i < k ==> c[i].id != id
    ensures Find(c, id) == k
  {
  }

  predicate Contains<E>(c: Cache<E>, id: string) {
    Find(c, id) < |c|
  }

  function Lookup<E>(c: Cache<E>, id: string): (r: Option<E>)
    ensures r.Some? <==> exists i :: 0 <= i < |c| && c[i].id == id
    ensures forall i :: 0 <= i < |c| && c[i].id == id && UniqueIds(c) ==> r == Some(c[i].embedding)
  {
    var k := Find(c, id);
    if k < |c| then Some(c[k].embedding) else None
  }

  /** Two caches with the same ids at the same positions find every id at
      the same position. */
  lemma SameIdsSameFind<E>(c: Cache<E>, c': Cache<E>, id: string)
    requires IdOrder(c) == IdOrder(c')
    ensures Find(c, id) == Find(c', id)
  {
  }

  /** Dictionary assignment `cache[id] = e`. */
  function Assign<E>(c: Cache<E>, id: string, e: E): (r: Cache<E>)
    ensures Lookup(r, id) == Some(e)
    ensures forall other :: other != id ==> Lookup(r, other) == Lookup(c, other)
    ensures Contains(c, id) ==> IdOrder(r) == IdOrder(c)
    ensures !Contains(c, id) ==> IdOrder(r) == IdOrder(c) + [id]
    ensures UniqueIds(c) ==> UniqueIds(r)
  {
    var k := Find(c, id);
    if k < |c| then
      var r := c[k := Entry(id, e)];
      assert IdOrder(r) == IdOrder(c);
      forall other ensures Find(r, other) == Find(c, other) {
        SameIdsSameFind(r, c, other);
      }
      r
    else
      var r := c + [Entry(id, e)];
      assert IdOrder(r) == IdOrder(c) + [id];
      forall other ensures Lookup(r, other) == if other == id then Some(e) else Lookup(c, other) {
        AppendLookups(c, id, e, other);
      }
      r
  }

  /** Appending an entry for an id the cache lacks makes that id find the
      new entry and leaves every other lookup as it was. */
  lemma AppendLookups<E>(c: Cache<E>, id: string, e: E, other: string)
    requires !Contains(c, id)
    ensures Lookup(c + [Entry(id, e)], other) == if other == id then Some(e) else Lookup(c, other)
  {
    var r := c + [Entry(id, e)];
    if other == id {
      FindIsFirstMatch(r, id, |c|);
    } else if Contains(c, other) {
      FindIsFirstMatch(r, other, Find(c, other));
    } else {
      FindIsFirstMatch(r, other, |r|);
    }
  }

  /** Dropping the entry at `k` from a cache with distinct ids forgets its
      id and keeps every other lookup. */
  lemma {:induction false} DropAtLookups<E>(c: Cache<E>, k: nat, other: string)
    requires UniqueIds(c) && k < |c|
    ensures Lookup(c[..k] + c[k + 1..], other) == if other == c[k].id then None else Lookup(c, other)
  {
    var r := c[..k] + c[k + 1..];
    assert forall i :: 0 <= i < k ==> r[i] == c[i];
    assert forall i :: k <= i < |r| ==> r[i] == c[i + 1];
    if other == c[k].id {
      assert forall i :: 0 <= i < |r| ==> r[i].id != other;
    } else if Contains(c, other) {
      var j := Find(c, other);
      if j < k {
        FindIsFirstMatch(r, other, j);
      } else {
        FindIsFirstMatch(r, other, j - 1);
      }
    } else {
      FindIsFirstMatch(r, other, |r|);
    }
  }

  /** Dropping the entry at `k` drops the `k`-th id. */
  lemma DropAtIdOrder<E>(c: Cache<E>, k: nat)
    requires k < |c|
    ensures IdOrder(c[..k] + c[k + 1..]) == IdOrder(c)[..k] + IdOrder(c)[k + 1..]
  {
    var ids, kept := IdOrder(c), IdOrder(c[..k] + c[k + 1..]);
    var dropped := ids[..k] + ids[k + 1..];
    assert |kept| == |dropped|;
    forall i | 0 <= i < |kept| ensures kept[i] == dropped[i] {
      if i >= k {
        assert dropped[i] == ids[i + 1];
      }
    }
  }

  /** Dropping an entry keeps the remaining ids distinct. */
  lemma DropAtUnique<E>(c: Cache<E>, k: nat)
    requires UniqueIds(c) && k < |c|
    ensures UniqueIds(c[..k] + c[k + 1..])
  {
    var r := c[..k] + c[k + 1..];
    forall i | 0 <= i < |r| ensures r[i] == c[if i < k then i else i + 1] {
    }
  }

  /** `del cache[id]` for an id the cache holds. */
  function Remove<E>(c: Cache<E>, id: string): (r: Cache<E>)
    requires UniqueIds(c) && Contains(c, id)
    ensures Lookup(r, id).None?
    ensures forall other :: other != id ==> Lookup(r, other) == Lookup(c, other)
    ensures IdOrder(r) == IdOrder(c)[..Find(c, id)] + IdOrder(c)[Find(c, id) + 1..]
    ensures UniqueIds(r)
  {
    var k := Find(c, id);
    var r := c[..k] + c[k + 1..];
    DropAtIdOrder(c, k);
    DropAtUnique(c, k);
    forall other ensures Lookup(r, other) == if other == id then None else Lookup(c, other) {
      DropAtLookups(c, k, other);
    }
    r
  }

  /** The cache after the eviction step of `save_character_embedding`: when
      it holds `CHARACTER_CACHE_SIZE` entries or more, the oldest one goes. */
  function EvictOldest<E>(c: Cache<E>): (r: Cache<E>)
    ensures |c| >= CHARACTER_CACHE_SIZE ==> IdOrder(r) == IdOrder(c)[1..] && |r| == |c| - 1
    ensures |c| < CHARACTER_CACHE_SIZE ==> r == c
    ensures UniqueIds(c) ==> UniqueIds(r)
  {
    if |c| >= CHARACTER_CACHE_SIZE then
      assert IdOrder(c[1..]) == IdOrder(c)[1..];
      c[1..]
    else c
  }

  /** Eviction forgets the oldest id and nothing else. */
  lemma EvictOldestForgetsOnlyOldest<E>(c: Cache<E>)
    requires UniqueIds(c)
    ensures |c| >= CHARACTER_CACHE_SIZE ==>
              forall other :: Lookup(EvictOldest(c), other) == if other == c[0].id then None else Lookup(c, other)
  {
  }

  /** What `save_character_embedding` leaves behind: the new cache, and
      whether the embedding was stored (extraction may raise, after the
      eviction has already happened). */
  datatype SaveOutcome<E> = SaveOutcome(cache: Cache<E>, saved: bool)

  /** `save_character_embedding`: evicts the oldest entry if the cache is
      full, then stores the embedding extracted from the reference images.
      `extracted` is `None` when extraction raises, which it does for an
      empty list of images. */
  function SaveCharacterEmbedding<E>(c: Cache<E>, id: string, extracted: Option<E>): (r: SaveOutcome<E>)
    requires UniqueIds(c)
    ensures UniqueIds(r.cache)
    ensures r.saved <==> extracted.Some?
    ensures r.saved ==> Lookup(r.cache, id) == extracted
    ensures |c| <= CHARACTER_CACHE_SIZE ==> |r.cache| <= CHARACTER_CACHE_SIZE
    ensures !r.saved ==> r.cache == EvictOldest(c)
    ensures r.saved ==>
              IdOrder(r.cache) == if Contains(EvictOldest(c), id) then IdOrder(EvictOldest(c)) else IdOrder(EvictOldest(c)) + [id]
    ensures |c| >= CHARACTER_CACHE_SIZE ==>
              && (!r.saved || c[0].id != id ==> Lookup(r.cache, c[0].id).None?)
              && (forall other :: other != id && other != c[0].id ==> Lookup(r.cache, other) == Lookup(c, other))
    ensures |c| < CHARACTER_CACHE_SIZE ==>
              forall other :: other != id ==> Lookup(r.cache, other) == Lookup(c, other)
  {
    EvictOldestForgetsOnlyOldest(c);
    var kept := EvictOldest(c);
    match extracted
    case None => SaveOutcome(kept, false)
    case Some(e) =>
      var r := Assign(kept, id, e);
      assert |IdOrder(r)| <= |IdOrder(kept)| + 1;
      SaveOutcome(r, true)
  }

  /** `clear_character_cache`. */
  function ClearCharacterCache<E>(c: Cache<E>): (r: Cache<E>)
    ensures forall id :: Lookup(r, id).None?
  {
    []
  }

  /** The arguments the engine hands to the diffusion pipeline. The prompt
      embedding it passes is derived from the cached character embedding,
      which is all this record keeps of it. */
  datatype PipelineCall<E> = PipelineCall(
    prompt: string,
    characterEmbedding: Option<E>,
    width: int,
    height: int,
    numImagesPerPrompt: int,
    inferenceSteps: nat,
    guidanceScale: real)

  /** A style applies only when it names a template. */
  predicate HasTemplate(style: Option<string>) {
    style.Some? && style.value != "" && style.value in STYLE_TEMPLATES
  }

  /** `generate_image` up to the pipeline call. */
  function GenerateImage<E>(
    c: Cache<E>, prompt: string, style: Option<string>, characterId: Option<string>,
    size: Option<ImageSize>, numImages: int, guidanceScale: real): (call: PipelineCall<E>)
    ensures HasTemplate(style) ==> call.prompt == prompt + ", " + GetStylePrompt(style.value)
    ensures !HasTemplate(style) ==> call.prompt == prompt
    ensures size.None? ==> call.width == 1024 && call.height == 1024
    ensures size.Some? ==> call.width == size.value.width && call.height == size.value.height
    ensures call.characterEmbedding.Some? <==>
              characterId.Some? && characterId.value != "" && Lookup(c, characterId.value).Some?
    ensures call.characterEmbedding.Some? ==> call.characterEmbedding == Lookup(c, characterId.value)
    ensures call.numImagesPerPrompt == numImages && call.guidanceScale == guidanceScale
    ensures call.inferenceSteps == 50
  {
    var styled := if HasTemplate(style) then prompt + ", " + GetStylePrompt(style.value) else prompt;
    var dims := match size case Some(s) => s case None => DEFAULT_IMAGE_SIZE;
    var embedding :=
      if characterId.Some? && characterId.value != "" && Contains(c, characterId.value)
      then Lookup(c, characterId.value) else None;
    PipelineCall(styled, embedding, dims.width, dims.height, numImages, GENERATION_STEPS, guidanceScale)
  }
}

=== FILE: base.dfy ===
/**
 Shared vocabulary: the fixed-width integers of the on-chain programs, account
 keys, and the Option/Result wrappers used for every fallible operation.
 */
module Base {

  const U64_MAX: int := 0xFFFF_FFFF_FFFF_FFFF
  const I64_MIN: int := -0x8000_0000_0000_0000
  const I64_MAX: int := 0x7FFF_FFFF_FFFF_FFFF

  type U8 = x: int | 0 <= x <= 0xFF
  type U16 = x: int | 0 <= x <= 0xFFFF
  type U64 = x: int | 0 <= x <= 0xFFFF_FFFF_FFFF_FFFF
  type I64 = x: int | -0x8000_0000_0000_0000 <= x <= 0x7FFF_FFFF_FFFF_FFFF

  /** An account address (a public key), compared by its textual form. */
  type Pubkey = string

  predicate InI64(x: int) {
    I64_MIN <= x <= I64_MAX
  }

  datatype Option<+T> = None | Some(value: T)

  /** The outcome of an instruction or a service call. */
  datatype Result<+T, +E> = Ok(value: T) | Err(error: E)

  /** The runtime keeps the writes of a successful instruction and discards
      every write of a failing one. */
  function Commit<S, E>(s: S, r: Result<S, E>): (s': S)
    ensures r.Err? ==> s' == s
    ensures r.Ok? ==> s' == r.value
  {
    match r
    case Ok(v) => v
    case Err(_) => s
  }
}

=== FILE: create_page.dfy ===
/**
 The Create page's decision logic: when a generation request is sent and
 what it asks for, how its answer updates the page, when a mint is
 submitted, and the metadata record the mint carries. The generation and
 minting services are outside this model; their outcome is an argument.
 Strings are sequences of characters.
 */
module CreatePage {
  import opened Base
  import opened AiConfig
  import ArtGenerator
  import EngineApi

  /** The values the style selector offers, in display order. */
  const STYLE_OPTIONS: seq<string> := ["cyberpunk", "surreal", "3d_render", "pixel_art"]
  const DEFAULT_STYLE: string := "cyberpunk"

  /** Every generation request asks for this many images at this quality. */
  const REQUESTED_IMAGES: int := 4
  const REQUESTED_QUALITY: string := "high"

  const NAME_PREFIX: string := "Art.AI Creation - "
  const NAME_SUFFIX: string := "..."
  const NAME_PROMPT_CHARS: nat := 20

  datatype ArtRequest = ArtRequest(prompt: string, style: string, numImages: int, quality: string)

  datatype Attribute = Attribute(traitType: string, value: string)

  datatype NftMetadata = NftMetadata(name: string, description: string, image: string, attributes: seq<Attribute>)

  datatype MintCall = MintCall(owner: Pubkey, metadata: NftMetadata)

  datatype Page = Page(
    prompt: string,
    style: string,
    generating: bool,
    images: seq<string>,
    selectedImage: Option<string>,
    wallet: Option<Pubkey>)

  function Initial(wallet: Option<Pubkey>): (p: Page)
    ensures p.style == DEFAULT_STYLE && p.style in STYLE_OPTIONS
    ensures p.prompt == "" && p.images == [] && p.selectedImage.None? && !p.generating
    ensures p.wallet == wallet
  {
    Page("", DEFAULT_STYLE, false, [], None, wallet)
  }

  /** The style options are exactly the engine's template names. */
  lemma StyleOptionsAreTemplateNames()
    ensures forall s :: s in STYLE_OPTIONS <==> s in STYLE_TEMPLATES
    ensures STYLE_OPTIONS == STYLE_NAMES
  {
  }

  datatype GenerateOutcome = GenerateOutcome(page: Page, request: Option<ArtRequest>)

  /** `handleGenerate`; `response` is the service's list of images, or `None`
      when the call fails. */
  function HandleGenerate(p: Page, response: Option<seq<string>>): (o: GenerateOutcome)
    ensures p.prompt == "" ==> o.request.None? && o.page == p
    ensures p.prompt != "" ==>
              && o.request == Some(ArtRequest(p.prompt, p.style, REQUESTED_IMAGES, REQUESTED_QUALITY))
              && !o.page.generating
              && o.page.images == (if response.Some? then response.value else p.images)
    ensures o.request.Some? ==> o.request.value.numImages <= MAX_BATCH_SIZE
    ensures o.page.prompt == p.prompt && o.page.style == p.style
    ensures o.page.selectedImage == p.selectedImage && o.page.wallet == p.wallet
  {
    if p.prompt == "" then GenerateOutcome(p, None)
    else
      var request := ArtRequest(p.prompt, p.style, REQUESTED_IMAGES, REQUESTED_QUALITY);
      var images := match response case Some(imgs) => imgs case None => p.images;
      GenerateOutcome(p.(generating := false, images := images), Some(request))
  }

  function Min(a: int, b: int): int {
    if a <= b then a else b
  }

  /** The metadata `handleMint` builds from the prompt, the chosen image and
      the style. */
  function MintMetadata(prompt: string, image: string, style: string): (m: NftMetadata)
    ensures |m.name| == |NAME_PREFIX| + Min(NAME_PROMPT_CHARS, |prompt|) + |NAME_SUFFIX| <= 41
    ensures m.name[..|NAME_PREFIX|] == NAME_PREFIX
    ensures m.name[|m.name| - |NAME_SUFFIX|..] == NAME_SUFFIX
    ensures m.name[|NAME_PREFIX|..|m.name| - |NAME_SUFFIX|] <= prompt
    ensures |prompt| <= NAME_PROMPT_CHARS ==> m.name == NAME_PREFIX + prompt + NAME_SUFFIX
    ensures m.description == prompt && m.image == image
    ensures m.attributes == [Attribute("Style", style)]
  {
    var shown := prompt[..Min(NAME_PROMPT_CHARS, |prompt|)];
    var name := NAME_PREFIX + shown + NAME_SUFFIX;
    assert name[..|NAME_PREFIX|] == NAME_PREFIX;
    assert name[|name| - |NAME_SUFFIX|..] == NAME_SUFFIX;
    assert name[|NAME_PREFIX|..|name| - |NAME_SUFFIX|] == shown;
    NftMetadata(name, prompt, image, [Attribute("Style", style)])
  }

  /** `handleMint`: the mint call it submits, if any. The page itself does
      not change whatever the call's outcome. */
  function HandleMint(p: Page): (call: Option<MintCall>)
    ensures call.None? <==> p.selectedImage.None? || p.selectedImage.value == "" || p.wallet.None?
    ensures call.Some? ==>
              && call.value.owner == p.wallet.value
              && call.value.metadata.image == p.selectedImage.value
              && call.value.metadata.description == p.prompt
              && call.value.metadata.attributes == [Attribute("Style", p.style)]
              && call.value.metadata == MintMetadata(p.prompt, p.selectedImage.value, p.style)
  {
    match (p.selectedImage, p.wallet)
    case (Some(image), Some(owner)) =>
      if image == "" then None else Some(MintCall(owner, MintMetadata(p.prompt, image, p.style)))
    case _ => None
  }

  /** What the user can do on the page. */
  datatype Event =
    | EditPrompt(text: string)
    | ChooseStyle(choice: string)
    | PickImage(image: string)
    | WalletChanged(wallet: Option<Pubkey>)
    | Generate(response: Option<seq<string>>)
    | Mint

  /** The selector only offers its four options, and only displayed images
      can be picked. */
  predicate Offered(p: Page, e: Event) {
    match e
    case ChooseStyle(choice) => choice in STYLE_OPTIONS
    case PickImage(image) => image in p.images
    case _ => true
  }

  function Apply(p: Page, e: Event): Page {
    match e
    case EditPrompt(text) => p.(prompt := text)
    case ChooseStyle(choice) => p.(style := choice)
    case PickImage(image) => p.(selectedImage := Some(image))
    case WalletChanged(w) => p.(wallet := w)
    case Generate(response) => HandleGenerate(p, response).page
    case Mint => p
  }

  /** Every event of `es` is offered in the page it reaches. */
  predicate OfferedRun(p: Page, es: seq<Event>)
    decreases |es|
  {
    |es| == 0 || (Offered(p, es[0]) && OfferedRun(Apply(p, es[0]), es[1..]))
  }

  function Run(p: Page, es: seq<Event>): Page
    decreases |es|
  {
    if |es| == 0 then p else Run(Apply(p, es[0]), es[1..])
  }

  /** Through any sequence of offered events the style stays one of the
      engine's template names. */
  lemma {:induction false} StyleStaysATemplate(p: Page, es: seq<Event>)
    requires p.style in STYLE_OPTIONS && OfferedRun(p, es)
    ensures Run(p, es).style in STYLE_TEMPLATES
    decreases |es|
  {
    if |es| > 0 {
      StyleStaysATemplate(Apply(p, es[0]), es[1..]);
    }
  }

  /** Every mint the page submits after a sequence of offered events is
      tagged with a style the engine has a template for. */
  lemma MintStyleIsATemplate(p: Page, es: seq<Event>)
    requires p.style in STYLE_OPTIONS && OfferedRun(p, es)
    ensures
      var call := HandleMint(Run(p, es));
      call.Some? ==>
        && |call.value.metadata.attributes| == 1
        && call.value.metadata.attributes[0].traitType == "Style"
        && call.value.metadata.attributes[0].value in STYLE_TEMPLATES
  {
    StyleStaysATemplate(p, es);
  }

  /** The engine request a page request becomes, assuming the client module
      forwards its fields unchanged. */
  function ToEngineRequest(r: ArtRequest): EngineApi.GenerationRequest {
    EngineApi.GenerationRequest(r.prompt, Some(r.style), None, None, Some(r.numImages), Some(r.quality))
  }

  /** A request sent from a page whose style is offered passes the engine's
      batch check and is generated at 4K with the style's template appended
      to the prompt. */
  lemma GenerateRequestIsServed<E>(p: Page, response: Option<seq<string>>, cache: ArtGenerator.Cache<E>)
    requires p.prompt != "" && p.style in STYLE_OPTIONS
    ensures HandleGenerate(p, response).request.Some?
    ensures
      var r := EngineApi.ServeGenerate(cache, ToEngineRequest(HandleGenerate(p, response).request.value));
      && r.Ok?
      && r.value.width == 3840 && r.value.height == 2160
      && r.value.numImagesPerPrompt == 4
      && r.value.prompt == p.prompt + ", " + STYLE_TEMPLATES[p.style]
  {
  }
}

=== FILE: engine_api.dfy ===
/**
 The engine's HTTP endpoints, reduced to what they decide before and after
 calling the generator: the batch-size check, the choice of image size from
 the quality setting, and the removal of a cached character. Transport,
 image encoding and status codes are not modelled.
 */
module EngineApi {
  import opened Base
  import opened AiConfig
  import opened ArtGenerator

  /** A generation request body. Its `size` field is accepted but never
      read: the size always comes from `quality`. */
  datatype GenerationRequest = GenerationRequest(
    prompt: string,
    style: Option<string>,
    characterId: Option<string>,
    size: Option<ImageSize>,
    numImages: Option<int>,
    quality: Option<string>)

  datatype ApiError =
      /** More images than `MAX_BATCH_SIZE` were asked for. */
    | BatchTooLarge
      /** An explicit null batch size, which the comparison rejects. */
    | BatchSizeMissing
    | CharacterNotFound

  /** `get_image_size` applied to the request's quality, which may be null. */
  function RequestedSize(quality: Option<string>): (size: ImageSize)
    ensures size == HIGH_RES_IMAGE_SIZE <==> quality == Some("high")
    ensures size != HIGH_RES_IMAGE_SIZE ==> size == DEFAULT_IMAGE_SIZE
  {
    match quality
    case Some(q) => GetImageSize(q)
    case None => DEFAULT_IMAGE_SIZE
  }

  /** `POST /generate` up to the pipeline call. */
  function ServeGenerate<E>(c: Cache<E>, req: GenerationRequest): (r: Result<PipelineCall<E>, ApiError>)
    ensures r.Ok? <==> req.numImages.Some? && req.numImages.value <= MAX_BATCH_SIZE
    ensures req.numImages.Some? && req.numImages.value > MAX_BATCH_SIZE ==> r == Err(BatchTooLarge)
    ensures r.Ok? ==>
              && r.value.numImagesPerPrompt == req.numImages.value
              && r.value.numImagesPerPrompt <= MAX_BATCH_SIZE
              && ImageSize(r.value.width, r.value.height) == RequestedSize(req.quality)
              && r.value.guidanceScale == DEFAULT_GUIDANCE_SCALE
    ensures r.Ok? && HasTemplate(req.style) ==> r.value.prompt == req.prompt + ", " + GetStylePrompt(req.style.value)
    ensures r.Ok? && !HasTemplate(req.style) ==> r.value.prompt == req.prompt
    ensures r.Ok? ==>
              (r.value.characterEmbedding.Some? <==>
                 req.characterId.Some? && req.characterId.value != "" && Lookup(c, req.characterId.value).Some?)
    ensures r.Ok? && r.value.characterEmbedding.Some? ==> r.value.characterEmbedding == Lookup(c, req.characterId.value)
    ensures r.Ok? ==> r.value.inferenceSteps == GENERATION_STEPS
  {
    match req.numImages
    case None => Err(BatchSizeMissing)
    case Some(n) =>
      if n > MAX_BATCH_SIZE then Err(BatchTooLarge)
      else Ok(GenerateImage(c, req.prompt, req.style, req.characterId, Some(RequestedSize(req.quality)), n, DEFAULT_GUIDANCE_SCALE))
  }

  /** `DELETE /character/{id}`. */
  function DeleteCharacter<E>(c: Cache<E>, id: string): (r: Result<Cache<E>, ApiError>)
    requires UniqueIds(c)
    ensures r.Err? <==> Lookup(c, id).None?
    ensures r.Err? ==> r.error == CharacterNotFound
    ensures r.Ok? ==>
              && UniqueIds(r.value)
              && Lookup(r.value, id).None?
              && (forall other :: other != id ==> Lookup(r.value, other) == Lookup(c, other))
              && |r.value| == |c| - 1
              && IdOrder(r.value) == IdOrder(c)[..Find(c, id)] + IdOrder(c)[Find(c, id) + 1..]
  {
    if Contains(c, id) then Ok(Remove(c, id)) else Err(CharacterNotFound)
  }
}

=== FILE: marketplace.dfy ===
/**
 The escrow marketplace program. A listing account records who sells which
 NFT mint, for how much and until when; the NFT itself sits in an escrow
 token account while the listing is active. Each instruction either fails,
 in which case the runtime discards all its writes, or yields the new
 program state.

 The accounts an instruction touches are passed as they are in the
 instruction's account list; the program does not check that the escrow or
 payment accounts belong to the listing, and this model does not either.
 */
module Marketplace {
  import opened Base
  import opened TokenLedger

  /** Bytes reserved for a listing account: discriminator, seller, mint,
      price, created-at, expires-at and the active flag. */
  const LISTING_LEN: nat := 8 + 32 + 32 + 8 + 8 + 8 + 1

  /** The declared field widths add up to 97 bytes. */
  lemma ListingSpace()
    ensures LISTING_LEN == 97
  {
  }

  datatype Listing = Listing(
    seller: Pubkey,
    nftMint: Pubkey,
    price: U64,
    createdAt: I64,
    expiresAt: I64,
    active: bool)

  /** The program's own error codes. */
  datatype ErrorCode = ListingNotActive | ListingExpired | UnauthorizedAccess

  datatype Failure =
    | Program(code: ErrorCode)
    | Token(cause: TokenError)
      /** The account to initialise already holds a listing. */
    | AccountInUse
      /** The listing account passed in holds no listing, or a token
          account passed in does not exist. */
    | AccountNotInitialized
      /** `now + duration` does not fit an i64 (the addition panics). */
    | ArithmeticOverflow

  /** Listing accounts by address, and the token accounts. */
  datatype Market = Market(listings: map<Pubkey, Listing>, ledger: Ledger)

  /** `create_listing`: initialises the listing account at `listing` and moves
      one token from the seller's token account into escrow. */
  function CreateListing(
    m: Market, listing: Pubkey, seller: Pubkey, nftMint: Pubkey,
    sellerTokenAccount: nat, escrowTokenAccount: nat,
    price: U64, duration: I64, now: I64): (r: Result<Market, Failure>)
    ensures r.Ok? <==>
              && listing !in m.listings
              && InI64(now + duration)
              && TransferAllowed(m.ledger, sellerTokenAccount, escrowTokenAccount, 1, seller)
    ensures !HasAccounts(m.ledger, {sellerTokenAccount, escrowTokenAccount}) ==> r == Err(AccountNotInitialized)
    ensures HasAccounts(m.ledger, {sellerTokenAccount, escrowTokenAccount}) && listing in m.listings ==>
              r == Err(AccountInUse)
    ensures listing !in m.listings && HasAccounts(m.ledger, {sellerTokenAccount, escrowTokenAccount}) && !InI64(now + duration) ==>
              r == Err(ArithmeticOverflow)
    ensures r.Ok? ==>
              && listing in r.value.listings
              && r.value.listings[listing].seller == seller
              && r.value.listings[listing].nftMint == nftMint
              && r.value.listings[listing].price == price
              && r.value.listings[listing].createdAt == now
              && r.value.listings[listing].expiresAt == now + duration
              && r.value.listings[listing].active
    ensures r.Ok? ==>
              && r.value.listings.Keys == m.listings.Keys + {listing}
              && (forall a :: a in m.listings ==> r.value.listings[a] == m.listings[a])
    ensures r.Ok? ==> OnlyBalancesOf(m.ledger, r.value.ledger, sellerTokenAccount, escrowTokenAccount)
    ensures r.Ok? ==> forall i :: 0 <= i < |m.ledger| ==>
              r.value.ledger[i].amount == m.ledger[i].amount + Flow(i, sellerTokenAccount, escrowTokenAccount, 1)
    ensures r.Ok? && sellerTokenAccount != escrowTokenAccount ==>
              && r.value.ledger[sellerTokenAccount].amount == m.ledger[sellerTokenAccount].amount - 1
              && r.value.ledger[escrowTokenAccount].amount == m.ledger[escrowTokenAccount].amount + 1
  {
    if !HasAccounts(m.ledger, {sellerTokenAccount, escrowTokenAccount}) then Err(AccountNotInitialized)
    else if listing in m.listings then Err(AccountInUse)
    else if !InI64(now + duration) then Err(ArithmeticOverflow)
    else
      var record := Listing(seller, nftMint, price, now, now + duration, true);
      match Transfer(m.ledger, sellerTokenAccount, escrowTokenAccount, 1, seller)
      case Err(e) => Err(Token(e))
      case Ok(ledger) => Ok(Market(m.listings[listing := record], ledger))
  }

  /** `cancel_listing`: the seller takes the NFT back out of escrow. The
      escrow account is debited on the listing account's authority. There is
      no expiry check. */
  function CancelListing(
    m: Market, listing: Pubkey, signer: Pubkey,
    escrowTokenAccount: nat, sellerTokenAccount: nat): (r: Result<Market, Failure>)
    ensures r.Ok? <==>
              && listing in m.listings
              && m.listings[listing].active
              && m.listings[listing].seller == signer
              && TransferAllowed(m.ledger, escrowTokenAccount, sellerTokenAccount, 1, listing)
    ensures listing !in m.listings || !HasAccounts(m.ledger, {escrowTokenAccount, sellerTokenAccount}) ==>
              r == Err(AccountNotInitialized)
    ensures listing in m.listings && HasAccounts(m.ledger, {escrowTokenAccount, sellerTokenAccount}) ==>
              && (!m.listings[listing].active ==> r == Err(Program(ListingNotActive)))
              && (m.listings[listing].active && m.listings[listing].seller != signer ==>
                    r == Err(Program(UnauthorizedAccess)))
    ensures r.Ok? ==>
              && r.value.listings.Keys == m.listings.Keys
              && r.value.listings[listing] == m.listings[listing].(active := false)
              && (forall a :: a in m.listings && a != listing ==> r.value.listings[a] == m.listings[a])
    ensures r.Ok? ==> OnlyBalancesOf(m.ledger, r.value.ledger, escrowTokenAccount, sellerTokenAccount)
    ensures r.Ok? ==> forall i :: 0 <= i < |m.ledger| ==>
              r.value.ledger[i].amount == m.ledger[i].amount + Flow(i, escrowTokenAccount, sellerTokenAccount, 1)
    ensures r.Ok? && escrowTokenAccount != sellerTokenAccount ==>
              && r.value.ledger[escrowTokenAccount].amount == m.ledger[escrowTokenAccount].amount - 1
              && r.value.ledger[sellerTokenAccount].amount == m.ledger[sellerTokenAccount].amount + 1
  {
    if listing !in m.listings || !HasAccounts(m.ledger, {escrowTokenAccount, sellerTokenAccount}) then
      Err(AccountNotInitialized)
    else
      var l := m.listings[listing];
      if !l.active then Err(Program(ListingNotActive))
      else if l.seller != signer then Err(Program(UnauthorizedAccess))
      else
        match Transfer(m.ledger, escrowTokenAccount, sellerTokenAccount, 1, listing)
        case Err(e) => Err(Token(e))
        case Ok(ledger) => Ok(Market(m.listings[listing := l.(active := false)], ledger))
  }

  /** The accounts a purchase moves tokens between. */
  datatype PurchaseAccounts = PurchaseAccounts(
    escrowTokenAccount: nat,
    buyerTokenAccount: nat,
    buyerPaymentAccount: nat,
    sellerPaymentAccount: nat)

  function AccountSet(acc: PurchaseAccounts): set<nat> {
    {acc.escrowTokenAccount, acc.buyerTokenAccount, acc.buyerPaymentAccount, acc.sellerPaymentAccount}
  }

  predicate Distinct(acc: PurchaseAccounts) {
    var PurchaseAccounts(e, b, bp, sp) := acc;
    e != b && e != bp && e != sp && b != bp && b != sp && bp != sp
  }

  /** `purchase`: the buyer pays the listed price to the seller's payment
      account, then the NFT leaves escrow for the buyer's token account.
      Nothing compares the buyer with the seller. */
  function Purchase(m: Market, listing: Pubkey, buyer: Pubkey, acc: PurchaseAccounts, now: I64): (r: Result<Market, Failure>)
    ensures r.Ok? <==>
              && listing in m.listings
              && m.listings[listing].active
              && now <= m.listings[listing].expiresAt
              && TransferAllowed(m.ledger, acc.buyerPaymentAccount, acc.sellerPaymentAccount, m.listings[listing].price, buyer)
              && TransferAllowed(
                   Transfer(m.ledger, acc.buyerPaymentAccount, acc.sellerPaymentAccount, m.listings[listing].price, buyer).value,
                   acc.escrowTokenAccount, acc.buyerTokenAccount, 1, listing)
    ensures listing !in m.listings || !HasAccounts(m.ledger, AccountSet(acc)) ==> r == Err(AccountNotInitialized)
    ensures listing in m.listings && HasAccounts(m.ledger, AccountSet(acc)) ==>
              && (!m.listings[listing].active ==> r == Err(Program(ListingNotActive)))
              && (m.listings[listing].active && now > m.listings[listing].expiresAt ==>
                    r == Err(Program(ListingExpired)))
    ensures r.Ok? ==>
              && r.value.listings.Keys == m.listings.Keys
              && r.value.listings[listing] == m.listings[listing].(active := false)
              && (forall a :: a in m.listings && a != listing ==> r.value.listings[a] == m.listings[a])
    ensures r.Ok? ==>
              && |r.value.ledger| == |m.ledger|
              && (forall i :: 0 <= i < |m.ledger| ==>
                    && r.value.ledger[i].mint == m.ledger[i].mint
                    && r.value.ledger[i].owner == m.ledger[i].owner
                    && r.value.ledger[i].amount == m.ledger[i].amount
                       + Flow(i, acc.buyerPaymentAccount, acc.sellerPaymentAccount, m.listings[listing].price)
                       + Flow(i, acc.escrowTokenAccount, acc.buyerTokenAccount, 1))
    ensures r.Ok? ==>
              var PurchaseAccounts(e, b, bp, sp) := acc;
              forall i :: 0 <= i < |m.ledger| && i !in {e, b, bp, sp} ==> r.value.ledger[i] == m.ledger[i]
    ensures r.Ok? && acc.buyerPaymentAccount == acc.sellerPaymentAccount
            && acc.buyerPaymentAccount != acc.escrowTokenAccount && acc.buyerPaymentAccount != acc.buyerTokenAccount ==>
              r.value.ledger[acc.buyerPaymentAccount] == m.ledger[acc.buyerPaymentAccount]
    ensures r.Ok? && Distinct(acc) ==>
              var price := m.listings[listing].price;
              var PurchaseAccounts(e, b, bp, sp) := acc;
              && r.value.ledger[bp].amount == m.ledger[bp].amount - price
              && r.value.ledger[sp].amount == m.ledger[sp].amount + price
              && r.value.ledger[e].amount == m.ledger[e].amount - 1
              && r.value.ledger[b].amount == m.ledger[b].amount + 1
  {
    if listing !in m.listings || !HasAccounts(m.ledger, AccountSet(acc)) then Err(AccountNotInitialized)
    else
      var l := m.listings[listing];
      if !l.active then Err(Program(ListingNotActive))
      else if now > l.expiresAt then Err(Program(ListingExpired))
      else
        match Transfer(m.ledger, acc.buyerPaymentAccount, acc.sellerPaymentAccount, l.price, buyer)
        case Err(e) => Err(Token(e))
        case Ok(paid) =>
          match Transfer(paid, acc.escrowTokenAccount, acc.buyerTokenAccount, 1, listing)
          case Err(e) => Err(Token(e))
          case Ok(delivered) => Ok(Market(m.listings[listing := l.(active := false)], delivered))
  }
}

=== FILE: marketplace_lifecycle.dfy ===
/**
 Sequences of marketplace instructions. A failing instruction leaves the
 program state as it was; a successful one commits its result. Over any
 sequence of instructions the marketplace neither creates nor destroys
 tokens, a listing becomes active only when its account is created, and a
 listing once settled (sold or cancelled) never changes again.
 */
module MarketplaceLifecycle {
  import opened Base
  import opened TokenLedger
  import opened Marketplace

  datatype Instruction =
    | Create(listing: Pubkey, seller: Pubkey, nftMint: Pubkey,
             sellerTokenAccount: nat, escrowTokenAccount: nat, price: U64, duration: I64)
    | Cancel(listing: Pubkey, signer: Pubkey, escrowTokenAccount: nat, sellerTokenAccount: nat)
    | Buy(listing: Pubkey, buyer: Pubkey, accounts: PurchaseAccounts)

  /** An instruction together with the cluster time it executes at. */
  datatype Call = Call(ins: Instruction, now: I64)

  function Execute(m: Market, c: Call): Result<Market, Failure> {
    match c.ins
    case Create(listing, seller, mint, sellerAcct, escrowAcct, price, duration) =>
      CreateListing(m, listing, seller, mint, sellerAcct, escrowAcct, price, duration, c.now)
    case Cancel(listing, signer, escrowAcct, sellerAcct) =>
      CancelListing(m, listing, signer, escrowAcct, sellerAcct)
    case Buy(listing, buyer, acc) =>
      Purchase(m, listing, buyer, acc, c.now)
  }

  function Step(m: Market, c: Call): Market {
    Commit(m, Execute(m, c))
  }

  function Run(m: Market, calls: seq<Call>): Market
    decreases |calls|
  {
    if |calls| == 0 then m else Run(Step(m, calls[0]), calls[1..])
  }

  /** One instruction conserves the supply of every mint. */
  lemma StepConservesSupply(m: Market, c: Call, mint: Pubkey)
    ensures Supply(Step(m, c).ledger, mint) == Supply(m.ledger, mint)
  {
    if Execute(m, c).Ok? {
      match c.ins
      case Create(listing, seller, _, sellerAcct, escrowAcct, _, _) =>
        TransferConservesSupply(m.ledger, sellerAcct, escrowAcct, 1, seller, mint);
      case Cancel(listing, _, escrowAcct, sellerAcct) =>
        TransferConservesSupply(m.ledger, escrowAcct, sellerAcct, 1, listing, mint);
      case Buy(listing, buyer, acc) =>
        var price := m.listings[listing].price;
        TransferConservesSupply(m.ledger, acc.buyerPaymentAccount, acc.sellerPaymentAccount, price, buyer, mint);
        var paid := Transfer(m.ledger, acc.buyerPaymentAccount, acc.sellerPaymentAccount, price, buyer).value;
        TransferConservesSupply(paid, acc.escrowTokenAccount, acc.buyerTokenAccount, 1, listing, mint);
    }
  }

  /** Any sequence of instructions conserves the supply of every mint. */
  lemma {:induction false} RunConservesSupply(m: Market, calls: seq<Call>, mint: Pubkey)
    ensures Supply(Run(m, calls).ledger, mint) == Supply(m.ledger, mint)
    decreases |calls|
  {
    if |calls| > 0 {
      StepConservesSupply(m, calls[0], mint);
      RunConservesSupply(Step(m, calls[0]), calls[1..], mint);
    }
  }

  /** An inactive listing survives every instruction unchanged. */
  lemma InactiveListingIsFinal(m: Market, c: Call, addr: Pubkey)
    requires addr in m.listings && !m.listings[addr].active
    ensures addr in Step(m, c).listings && Step(m, c).listings[addr] == m.listings[addr]
  {
  }

  /** An inactive listing survives every sequence of instructions unchanged. */
  lemma {:induction false} RunKeepsInactiveListing(m: Market, calls: seq<Call>, addr: Pubkey)
    requires addr in m.listings && !m.listings[addr].active
    ensures addr in Run(m, calls).listings && Run(m, calls).listings[addr] == m.listings[addr]
    decreases |calls|
  {
    if |calls| > 0 {
      InactiveListingIsFinal(m, calls[0], addr);
      RunKeepsInactiveListing(Step(m, calls[0]), calls[1..], addr);
    }
  }

  /** Listing accounts are never closed. */
  lemma {:induction false} RunKeepsListingAccounts(m: Market, calls: seq<Call>)
    ensures m.listings.Keys <= Run(m, calls).listings.Keys
    decreases |calls|
  {
    if |calls| > 0 {
      RunKeepsListingAccounts(Step(m, calls[0]), calls[1..]);
    }
  }

  /** The only way an address comes to hold an active listing it did not
      hold before is a successful `create_listing` for a fresh account. */
  lemma ActivationOnlyAtCreation(m: Market, c: Call, addr: Pubkey)
    requires addr in Step(m, c).listings && Step(m, c).listings[addr].active
    ensures || (addr in m.listings && m.listings[addr] == Step(m, c).listings[addr])
            || (c.ins.Create? && c.ins.listing == addr && addr !in m.listings && Execute(m, c).Ok?)
  {
  }

  /** After a successful sale or cancellation, both a second purchase and a
      cancel of the same listing fail, whoever signs and whenever they are
      sent: with `ListingNotActive` once the token accounts passed exist. */
  lemma SettledListingRejectsFurtherCalls(m: Market, c: Call, buyer: Pubkey, acc: PurchaseAccounts, signer: Pubkey, escrow: nat, sellerAcct: nat, later: I64)
    requires (c.ins.Buy? || c.ins.Cancel?) && Execute(m, c).Ok?
    ensures Purchase(Step(m, c), c.ins.listing, buyer, acc, later)
            == if HasAccounts(m.ledger, AccountSet(acc)) then Err(Program(ListingNotActive)) else Err(AccountNotInitialized)
    ensures CancelListing(Step(m, c), c.ins.listing, signer, escrow, sellerAcct)
            == if HasAccounts(m.ledger, {escrow, sellerAcct}) then Err(Program(ListingNotActive)) else Err(AccountNotInitialized)
  {
  }
}

=== FILE: marketplace_page.dfy ===
/**
 The Marketplace page's decision logic: the cached list of listings, the
 loading flag, when purchase and create-listing calls are made, and how the
 purchase button is enabled and labelled. The marketplace service is outside
 this model; each call's outcome is an argument.
 */
module MarketplacePage {
  import opened Base

  /** A listing as the marketplace service reports it. */
  datatype NftListing = NftListing(
    id: string,
    name: string,
    image: string,
    style: string,
    price: real,
    seller: string)

  datatype Page = Page(
    listings: seq<NftListing>,
    selectedNft: Option<NftListing>,
    loading: bool,
    wallet: Option<Pubkey>)

  /** The page as it mounts, before its first fetch. */
  function Initial(wallet: Option<Pubkey>): (p: Page)
    ensures p.listings == [] && p.selectedNft.None? && !p.loading && p.wallet == wallet
  {
    Page([], None, false, wallet)
  }

  /** `fetchListings`; `response` is the fetched list, or `None` when the
      call fails. The failure is reported, never propagated. */
  function FetchListings(p: Page, response: Option<seq<NftListing>>): (p': Page)
    ensures response.Some? ==> p'.listings == response.value
    ensures response.None? ==> p'.listings == p.listings
    ensures !p'.loading
    ensures p'.selectedNft == p.selectedNft && p'.wallet == p.wallet
  {
    match response
    case Some(fetched) => p.(listings := fetched, loading := false)
    case None => p.(loading := false)
  }

  datatype PurchaseCall = PurchaseCall(buyer: Pubkey, listing: NftListing)

  datatype PurchaseOutcome = PurchaseOutcome(page: Page, call: Option<PurchaseCall>, refetched: bool)

  /** `handlePurchase`: without a wallet nothing is called. Otherwise the
      purchase is submitted, and only a successful one is followed by a
      refetch (whose answer is `refetch`). Nothing here compares the buyer
      with the seller. */
  function HandlePurchase(p: Page, listing: NftListing, purchaseSucceeded: bool, refetch: Option<seq<NftListing>>): (o: PurchaseOutcome)
    ensures p.wallet.None? <==> o.call.None?
    ensures p.wallet.None? ==> o.page == p && !o.refetched
    ensures o.call.Some? ==> o.call.value == PurchaseCall(p.wallet.value, listing)
    ensures o.refetched <==> o.call.Some? && purchaseSucceeded
    ensures o.call.Some? ==> !o.page.loading
    ensures o.refetched ==> o.page.listings == (if refetch.Some? then refetch.value else p.listings)
    ensures !o.refetched ==> o.page.listings == p.listings
    ensures o.page.selectedNft == p.selectedNft && o.page.wallet == p.wallet
  {
    match p.wallet
    case None => PurchaseOutcome(p, None, false)
    case Some(buyer) =>
      var call := Some(PurchaseCall(buyer, listing));
      if purchaseSucceeded then PurchaseOutcome(FetchListings(p, refetch).(loading := false), call, true)
      else PurchaseOutcome(p.(loading := false), call, false)
  }

  datatype CreateListingCall = CreateListingCall(seller: Pubkey, nft: NftListing, price: real)

  datatype CreateListingOutcome = CreateListingOutcome(page: Page, call: Option<CreateListingCall>)

  /** `handleCreateListing`: returns at once unless both an NFT is selected
      and a wallet is connected; otherwise submits the listing and refetches
      after a success. */
  function HandleCreateListing(p: Page, price: real, createSucceeded: bool, refetch: Option<seq<NftListing>>): (o: CreateListingOutcome)
    ensures o.call.None? <==> p.selectedNft.None? || p.wallet.None?
    ensures o.call.None? ==> o.page == p
    ensures o.call.Some? ==>
              && o.call.value == CreateListingCall(p.wallet.value, p.selectedNft.value, price)
              && !o.page.loading
    ensures o.call.Some? && createSucceeded && refetch.Some? ==> o.page.listings == refetch.value
    ensures !(o.call.Some? && createSucceeded && refetch.Some?) ==> o.page.listings == p.listings
    ensures o.page.selectedNft == p.selectedNft && o.page.wallet == p.wallet
  {
    match (p.selectedNft, p.wallet)
    case (Some(nft), Some(seller)) =>
      var call := Some(CreateListingCall(seller, nft, price));
      if createSucceeded then CreateListingOutcome(FetchListings(p, refetch).(loading := false), call)
      else CreateListingOutcome(p.(loading := false), call)
    case _ => CreateListingOutcome(p, None)
  }

  datatype PurchaseButton = PurchaseButton(disabled: bool, caption: string)

  /** The purchase button under a listing. */
  function PurchaseButtonFor(listing: NftListing, wallet: Option<Pubkey>): (b: PurchaseButton)
    ensures !b.disabled <==> wallet.Some? && listing.seller != wallet.value
    ensures b.caption == "Your Listing" <==> wallet.Some? && listing.seller == wallet.value
    ensures b.caption != "Your Listing" ==> b.caption == "Purchase"
  {
    var own := wallet.Some? && listing.seller == wallet.value;
    PurchaseButton(wallet.None? || own, if own then "Your Listing" else "Purchase")
  }

  /** What happens on the page. The create-listing button carries no price:
      it always submits 0, whatever was typed into the price field. */
  datatype Event =
    | Refresh(response: Option<seq<NftListing>>)
    | ClickPurchase(listing: NftListing, succeeded: bool, refetch: Option<seq<NftListing>>)
    | ClickCreateListing(succeeded: bool, refetch: Option<seq<NftListing>>)
    | WalletChanged(wallet: Option<Pubkey>)

  /** Only listed items can be bought, and only through an enabled button. */
  predicate Offered(p: Page, e: Event) {
    match e
    case ClickPurchase(listing, _, _) => listing in p.listings && !PurchaseButtonFor(listing, p.wallet).disabled
    case _ => true
  }

  /** The purchase and create-listing calls an event makes. A refresh's
      fetch is recorded only through its answer. */
  datatype Calls = Calls(purchase: Option<PurchaseCall>, createListing: Option<CreateListingCall>)

  function Apply(p: Page, e: Event): (Page, Calls) {
    match e
    case Refresh(response) => (FetchListings(p, response), Calls(None, None))
    case ClickPurchase(listing, ok, refetch) =>
      var o := HandlePurchase(p, listing, ok, refetch);
      (o.page, Calls(o.call, None))
    case ClickCreateListing(ok, refetch) =>
      var o := HandleCreateListing(p, 0.0, ok, refetch);
      (o.page, Calls(None, o.call))
    case WalletChanged(w) => (p.(wallet := w), Calls(None, None))
  }

  /** The create-listing button's call, when it makes one, asks for price 0. */
  lemma CreateListingButtonPriceIsZero(p: Page, ok: bool, refetch: Option<seq<NftListing>>)
    ensures Apply(p, ClickCreateListing(ok, refetch)).1.createListing.Some? ==>
              Apply(p, ClickCreateListing(ok, refetch)).1.createListing.value.price == 0.0
  {
  }

  /** The pages a sequence of offered events passes through, and the calls
      it makes, in order. */
  function Run(p: Page, es: seq<Event>): (Page, seq<Calls>)
    decreases |es|
  {
    if |es| == 0 then (p, [])
    else
      var (p1, c) := Apply(p, es[0]);
      var (pn, cs) := Run(p1, es[1..]);
      (pn, [c] + cs)
  }

  predicate OfferedRun(p: Page, es: seq<Event>)
    decreases |es|
  {
    |es| == 0 || (Offered(p, es[0]) && OfferedRun(Apply(p, es[0]).0, es[1..]))
  }

  /** Nothing ever selects an NFT, so from the initial page the
      create-listing handler never calls the service. */
  lemma {:induction false} CreateListingNeverCalls(p: Page, es: seq<Event>)
    requires p.selectedNft.None?
    ensures Run(p, es).0.selectedNft.None?
    ensures forall i :: 0 <= i < |Run(p, es).1| ==> Run(p, es).1[i].createListing.None?
    decreases |es|
  {
    if |es| > 0 {
      CreateListingNeverCalls(Apply(p, es[0]).0, es[1..]);
    }
  }

  /** The page mounts with nothing selected, so no create-listing call is
      ever made from it. */
  lemma InitialPageNeverCreatesListings(wallet: Option<Pubkey>, es: seq<Event>)
    ensures forall i :: 0 <= i < |Run(Initial(wallet), es).1| ==> Run(Initial(wallet), es).1[i].createListing.None?
  {
    CreateListingNeverCalls(Initial(wallet), es);
  }

  /** After a run of refreshes the page shows the answer of the last one
      that succeeded, or what it showed before when none did: a failed
      fetch never clears the list. No purchase or create-listing call is
      made. */
  lemma {:induction false} RefreshesKeepLastAnswer(p: Page, es: seq<Event>)
    requires forall i :: 0 <= i < |es| ==> es[i].Refresh?
    ensures (forall i :: 0 <= i < |es| ==> es[i].response.None?) ==> Run(p, es).0.listings == p.listings
    ensures forall j :: 0 <= j < |es| && es[j].response.Some? && (forall k :: j < k < |es| ==> es[k].response.None?) ==>
              Run(p, es).0.listings == es[j].response.value
    ensures |es| > 0 ==> !Run(p, es).0.loading
    ensures Run(p, es).0.selectedNft == p.selectedNft && Run(p, es).0.wallet == p.wallet
    ensures forall i :: 0 <= i < |Run(p, es).1| ==> Run(p, es).1[i] == Calls(None, None)
    decreases |es|
  {
    if |es| > 0 {
      var p1 := FetchListings(p, es[0].response);
      RefreshesKeepLastAnswer(p1, es[1..]);
      forall j | 0 <= j < |es| && es[j].response.Some? && (forall k :: j < k < |es| ==> es[k].response.None?)
        ensures Run(p, es).0.listings == es[j].response.value
      {
        if j == 0 {
          assert forall i :: 0 <= i < |es[1..]| ==> es[1..][i].response.None?;
        } else {
          assert es[1..][j - 1] == es[j];
          assert forall k :: j - 1 < k < |es[1..]| ==> es[1..][k].response.None?;
        }
      }
    }
  }

  /** Every purchase the page submits through offered events has a buyer
      other than the listing's seller; this is the page's check only. */
  lemma {:induction false} PurchasesNeverBySeller(p: Page, es: seq<Event>)
    requires OfferedRun(p, es)
    ensures forall i :: 0 <= i < |Run(p, es).1| && Run(p, es).1[i].purchase.Some? ==>
              Run(p, es).1[i].purchase.value.buyer != Run(p, es).1[i].purchase.value.listing.seller
    decreases |es|
  {
    if |es| > 0 {
      PurchasesNeverBySeller(Apply(p, es[0]).0, es[1..]);
    }
  }
}

=== FILE: nft.dfy ===
/**
 The NFT collection program: a collection account with a supply counter,
 single-token minting with a metadata record built for the external
 metadata program, and single-token transfers.
 */
module Nft {
  import opened Base
  import opened TokenLedger

  /** Bytes reserved for a collection account: discriminator, authority,
      name, symbol, uri and total supply, with the widths the program
      declares for them. */
  const COLLECTION_LEN: nat := 8 + 32 + 32 + 8 + 32 + 8

  /** Royalty passed to the metadata program, in basis points (5%). */
  const SELLER_FEE_BASIS_POINTS: U16 := 500

  /** The declared field widths add up to 120 bytes. */
  lemma CollectionSpace()
    ensures COLLECTION_LEN == 120
  {
  }

  datatype Collection = Collection(
    authority: Pubkey,
    name: string,
    symbol: string,
    uri: string,
    totalSupply: U64)

  datatype Creator = Creator(address: Pubkey, verified: bool, share: U8)

  /** The arguments of the metadata-account creation call. Its collection
      and uses arguments are always absent and are not recorded. */
  datatype MetadataInstruction = MetadataInstruction(
    metadata: Pubkey,
    mint: Pubkey,
    mintAuthority: Pubkey,
    payer: Pubkey,
    updateAuthority: Pubkey,
    name: string,
    symbol: string,
    uri: string,
    creators: seq<Creator>,
    sellerFeeBasisPoints: U16,
    updateAuthorityIsSigner: bool,
    isMutable: bool)

  datatype NftState = NftState(collections: map<Pubkey, Collection>, ledger: Ledger)

  datatype NftFailure =
    | AccountInUse
      /** The collection account holds no collection, or a token account
          passed in does not exist. */
    | AccountNotInitialized
      /** The external metadata program rejected the instruction. */
    | MetadataRejected
    | Token(cause: TokenError)
      /** `total_supply` is already u64::MAX; the checked add unwraps to a panic. */
    | SupplyOverflow

  /** `initialize`: creates the collection account at `collection`. */
  function Initialize(s: NftState, collection: Pubkey, authority: Pubkey, name: string, symbol: string, uri: string): (r: Result<NftState, NftFailure>)
    ensures collection in s.collections <==> r == Err(AccountInUse)
    ensures collection !in s.collections ==> r.Ok?
    ensures r.Ok? ==>
              && r.value.ledger == s.ledger
              && r.value.collections.Keys == s.collections.Keys + {collection}
              && r.value.collections[collection] == Collection(authority, name, symbol, uri, 0)
              && (forall a :: a in s.collections ==> r.value.collections[a] == s.collections[a])
  {
    if collection in s.collections then Err(AccountInUse)
    else Ok(s.(collections := s.collections[collection := Collection(authority, name, symbol, uri, 0)]))
  }

  /** The metadata-creation call `mint_nft` issues: the signing authority is
      mint authority, payer and update authority at once, and the only
      creator. */
  function MetadataCall(metadata: Pubkey, mint: Pubkey, authority: Pubkey, name: string, symbol: string, uri: string, creatorShare: U8): (call: MetadataInstruction)
    ensures call.creators == [Creator(authority, true, creatorShare)]
    ensures call.sellerFeeBasisPoints == 500
    ensures call.mintAuthority == authority && call.payer == authority && call.updateAuthority == authority
    ensures call.metadata == metadata && call.mint == mint
    ensures call.name == name && call.symbol == symbol && call.uri == uri
    ensures call.updateAuthorityIsSigner && !call.isMutable
  {
    MetadataInstruction(
      metadata, mint, authority, authority, authority,
      name, symbol, uri,
      [Creator(authority, true, creatorShare)],
      SELLER_FEE_BASIS_POINTS, true, false)
  }

  /** The accounts `mint_nft` is given. */
  datatype MintAccounts = MintAccounts(
    collection: Pubkey,
    mint: Pubkey,
    metadata: Pubkey,
    tokenAccount: nat,
    authority: Pubkey)

  /** `mint_nft`: creates the metadata account through the external metadata
      program (whose verdict is `metadataProgram`), mints one token into the
      target token account, then bumps the collection's supply counter. No
      check ties the signing authority to the collection's authority. */
  function MintNft(
    s: NftState, acc: MintAccounts, name: string, symbol: string, uri: string, creatorShare: U8,
    metadataProgram: MetadataInstruction -> bool): (r: Result<NftState, NftFailure>)
    ensures r.Ok? <==>
              && acc.collection in s.collections
              && metadataProgram(MetadataCall(acc.metadata, acc.mint, acc.authority, name, symbol, uri, creatorShare))
              && MintAllowed(s.ledger, acc.tokenAccount, acc.mint, 1)
              && s.collections[acc.collection].totalSupply < U64_MAX
    ensures acc.collection !in s.collections || acc.tokenAccount >= |s.ledger| ==> r == Err(AccountNotInitialized)
    ensures acc.collection in s.collections && acc.tokenAccount < |s.ledger|
            && !metadataProgram(MetadataCall(acc.metadata, acc.mint, acc.authority, name, symbol, uri, creatorShare)) ==>
              r == Err(MetadataRejected)
    ensures r.Ok? ==>
              var before := s.collections[acc.collection];
              && r.value.collections.Keys == s.collections.Keys
              && r.value.collections[acc.collection] == before.(totalSupply := before.totalSupply + 1)
              && (forall a :: a in s.collections && a != acc.collection ==> r.value.collections[a] == s.collections[a])
    ensures r.Ok? ==>
              && OnlyBalancesOf(s.ledger, r.value.ledger, acc.tokenAccount, acc.tokenAccount)
              && r.value.ledger[acc.tokenAccount].amount == s.ledger[acc.tokenAccount].amount + 1
  {
    if acc.collection !in s.collections || acc.tokenAccount >= |s.ledger| then Err(AccountNotInitialized)
    else
      var c := s.collections[acc.collection];
      if !metadataProgram(MetadataCall(acc.metadata, acc.mint, acc.authority, name, symbol, uri, creatorShare)) then
        Err(MetadataRejected)
      else
        match MintTo(s.ledger, acc.tokenAccount, acc.mint, 1)
        case Err(e) => Err(Token(e))
        case Ok(ledger) =>
          if c.totalSupply + 1 > U64_MAX then Err(SupplyOverflow)
          else Ok(NftState(s.collections[acc.collection := c.(totalSupply := c.totalSupply + 1)], ledger))
  }

  /** A successful mint adds exactly one token to the minted mint's supply. */
  lemma MintNftSupply(
    s: NftState, acc: MintAccounts, name: string, symbol: string, uri: string, creatorShare: U8,
    metadataProgram: MetadataInstruction -> bool)
    requires MintNft(s, acc, name, symbol, uri, creatorShare, metadataProgram).Ok?
    ensures Supply(MintNft(s, acc, name, symbol, uri, creatorShare, metadataProgram).value.ledger, acc.mint)
            == Supply(s.ledger, acc.mint) + 1
  {
    MintToSupply(s.ledger, acc.tokenAccount, acc.mint, 1, acc.mint);
  }

  /** A freshly initialised collection cannot be initialised again, and a
      mint into it succeeds exactly when the metadata program and the token
      mint accept, leaving its counter at 1. */
  lemma InitializeThenMint(
    s: NftState, collection: Pubkey, authority: Pubkey, name: string, symbol: string, uri: string,
    authority': Pubkey, name': string, symbol': string, uri': string,
    acc: MintAccounts, nftName: string, nftSymbol: string, nftUri: string, creatorShare: U8,
    metadataProgram: MetadataInstruction -> bool)
    requires collection !in s.collections && acc.collection == collection
    ensures Initialize(s, collection, authority, name, symbol, uri).Ok?
    ensures
      var s1 := Initialize(s, collection, authority, name, symbol, uri).value;
      && Initialize(s1, collection, authority', name', symbol', uri') == Err(AccountInUse)
      && (MintNft(s1, acc, nftName, nftSymbol, nftUri, creatorShare, metadataProgram).Ok? <==>
            && metadataProgram(MetadataCall(acc.metadata, acc.mint, acc.authority, nftName, nftSymbol, nftUri, creatorShare))
            && MintAllowed(s.ledger, acc.tokenAccount, acc.mint, 1))
      && (MintNft(s1, acc, nftName, nftSymbol, nftUri, creatorShare, metadataProgram).Ok? ==>
            && MintNft(s1, acc, nftName, nftSymbol, nftUri, creatorShare, metadataProgram).value.collections[collection]
               == Collection(authority, name, symbol, uri, 1))
  {
  }

  /** `transfer_nft`: moves one token from `from` to `to`. */
  function TransferNft(s: NftState, from: nat, to: nat, authority: Pubkey): (r: Result<NftState, NftFailure>)
    ensures r.Ok? <==> TransferAllowed(s.ledger, from, to, 1, authority)
    ensures from >= |s.ledger| || to >= |s.ledger| ==> r == Err(AccountNotInitialized)
    ensures r.Ok? ==> r.value.collections == s.collections
    ensures r.Ok? ==>
              && OnlyBalancesOf(s.ledger, r.value.ledger, from, to)
              && r.value.ledger[from].amount + r.value.ledger[to].amount
                 == s.ledger[from].amount + s.ledger[to].amount
    ensures r.Ok? && from != to ==> r.value.ledger[to].amount == s.ledger[to].amount + 1
  {
    if from >= |s.ledger| || to >= |s.ledger| then Err(AccountNotInitialized)
    else match Transfer(s.ledger, from, to, 1, authority)
    case Err(e) => Err(Token(e))
    case Ok(ledger) => Ok(s.(ledger := ledger))
  }
}

=== FILE: token_ledger.dfy ===
/**
 An abstraction of the token program that the marketplace and collection
 programs call into. A ledger is a sequence of token accounts, addressed by
 their index. Each account holds an amount of exactly one mint and has one
 owner. Only the checks that decide whether a balance move happens are kept:
 the accounts exist, the source holds enough, both accounts hold the same
 mint, the authority owns the source, and the destination does not overflow
 a u64.
 */
module TokenLedger {
  import opened Base

  datatype TokenAccount = TokenAccount(mint: Pubkey, owner: Pubkey, amount: U64)

  type Ledger = seq<TokenAccount>

  datatype TokenError =
    | AccountNotFound
    | InsufficientFunds
    | MintMismatch
    | OwnerMismatch
    | Overflow

  /** What account `a` contributes to the circulating supply of `mint`. */
  function Held(a: TokenAccount, mint: Pubkey): nat {
    if a.mint == mint then a.amount else 0
  }

  /** Total amount of `mint` held across the ledger. */
  function Supply(l: Ledger, mint: Pubkey): nat {
    if |l| == 0 then 0 else Held(l[0], mint) + Supply(l[1..], mint)
  }

  /** `l'` differs from `l` at most in the balances of `a` and `b`. */
  ghost predicate OnlyBalancesOf(l: Ledger, l': Ledger, a: nat, b: nat) {
    && |l'| == |l|
    && (forall i :: 0 <= i < |l| ==> l'[i].mint == l[i].mint && l'[i].owner == l[i].owner)
    && (forall i :: 0 <= i < |l| && i != a && i != b ==> l'[i] == l[i])
  }

  /** The change a transfer of `amount` from `from` to `to` makes to the
      balance of account `i`; nothing when the two accounts coincide. */
  function Flow(i: nat, from: nat, to: nat, amount: int): int {
    (if i == to then amount else 0) - (if i == from then amount else 0)
  }

  /** Every account index in `accounts` names an account of the ledger. */
  predicate HasAccounts(l: Ledger, accounts: set<nat>) {
    forall i :: i in accounts ==> i < |l|
  }

  predicate TransferAllowed(l: Ledger, from: nat, to: nat, amount: U64, authority: Pubkey) {
    && from < |l|
    && to < |l|
    && amount <= l[from].amount
    && l[from].mint == l[to].mint
    && authority == l[from].owner
    && (from == to || l[to].amount + amount <= U64_MAX)
  }

  /** Moves `amount` tokens from account `from` to account `to`, signed by
      `authority`. A transfer of an account to itself succeeds and changes
      nothing. */
  function Transfer(l: Ledger, from: nat, to: nat, amount: U64, authority: Pubkey): (r: Result<Ledger, TokenError>)
    ensures r.Ok? <==> TransferAllowed(l, from, to, amount, authority)
    ensures (from >= |l| || to >= |l|) ==> r == Err(AccountNotFound)
    ensures r.Ok? ==> OnlyBalancesOf(l, r.value, from, to)
    ensures r.Ok? && from != to ==>
              && r.value[from].amount == l[from].amount - amount
              && r.value[to].amount == l[to].amount + amount
    ensures r.Ok? && from == to ==> r.value == l
    ensures r.Ok? ==> forall i :: 0 <= i < |l| ==> r.value[i].amount == l[i].amount + Flow(i, from, to, amount)
  {
    if from >= |l| || to >= |l| then Err(AccountNotFound)
    else if l[from].amount < amount then Err(InsufficientFunds)
    else if l[from].mint != l[to].mint then Err(MintMismatch)
    else if authority != l[from].owner then Err(OwnerMismatch)
    else if from == to then Ok(l)
    else if l[to].amount + amount > U64_MAX then Err(Overflow)
    else
      var l1 := l[from := l[from].(amount := l[from].amount - amount)];
      Ok(l1[to := l1[to].(amount := l1[to].amount + amount)])
  }

  predicate MintAllowed(l: Ledger, to: nat, mint: Pubkey, amount: U64) {
    to < |l| && l[to].mint == mint && l[to].amount + amount <= U64_MAX
  }

  /** Creates `amount` new tokens of `mint` in account `to`. */
  function MintTo(l: Ledger, to: nat, mint: Pubkey, amount: U64): (r: Result<Ledger, TokenError>)
    ensures r.Ok? <==> MintAllowed(l, to, mint, amount)
    ensures r.Ok? ==> OnlyBalancesOf(l, r.value, to, to)
    ensures r.Ok? ==> r.value[to].amount == l[to].amount + amount
  {
    if to >= |l| then Err(AccountNotFound)
    else if l[to].mint != mint then Err(MintMismatch)
    else if l[to].amount + amount > U64_MAX then Err(Overflow)
    else Ok(l[to := l[to].(amount := l[to].amount + amount)])
  }

  /** Replacing one account changes the supply of a mint by the difference of
      the two accounts' holdings of it. */
  lemma {:induction false} SupplyUpdate(l: Ledger, i: nat, a: TokenAccount, mint: Pubkey)
    requires i < |l|
    ensures Supply(l[i := a], mint) + Held(l[i], mint) == Supply(l, mint) + Held(a, mint)
  {
    if i == 0 {
      assert l[i := a][1..] == l[1..];
    } else {
      assert l[i := a][1..] == l[1..][i - 1 := a];
      SupplyUpdate(l[1..], i - 1, a, mint);
    }
  }

  /** A successful transfer neither creates nor destroys tokens of any mint. */
  lemma TransferConservesSupply(l: Ledger, from: nat, to: nat, amount: U64, authority: Pubkey, mint: Pubkey)
    requires Transfer(l, from, to, amount, authority).Ok?
    ensures Supply(Transfer(l, from, to, amount, authority).value, mint) == Supply(l, mint)
  {
    if from != to {
      var l1 := l[from := l[from].(amount := l[from].amount - amount)];
      SupplyUpdate(l, from, l1[from], mint);
      SupplyUpdate(l1, to, l1[to].(amount := l1[to].amount + amount), mint);
    }
  }

  /** A successful mint raises the supply of the minted token by exactly the
      minted amount and leaves every other mint's supply alone. */
  lemma MintToSupply(l: Ledger, to: nat, mint: Pubkey, amount: U64, other: Pubkey)
    requires MintTo(l, to, mint, amount).Ok?
    ensures Supply(MintTo(l, to, mint, amount).value, mint) == Supply(l, mint) + amount
    ensures other != mint ==> Supply(MintTo(l, to, mint, amount).value, other) == Supply(l, other)
  {
    SupplyUpdate(l, to, l[to].(amount := l[to].amount + amount), mint);
    SupplyUpdate(l, to, l[to].(amount := l[to].amount + amount), other);
  }
}
